=== FILE: README.md ===
# pgRouting: pickup-and-delivery solution ranking and the Euclidean TSP entry point

This project models two small pieces of pgRouting in Dafny and proves properties of them.

1. **`Solution`** (`src/pickDeliver/src/solution.cpp`). A pickup-and-delivery solution is an ordered fleet of vehicles. The model covers:
   - the four reductions over the fleet: duration, time-window violations, waiting time and capacity violations;
   - the one-pass `cost()` that builds the tuple `(twv, cv, fleet size, wait, duration)`;
   - feasibility of the whole fleet;
   - `operator<`, which ranks solutions lexicographically by that tuple;
   - the export of every vehicle's rows, each tagged with a 1-based vehicle number.

   Vehicles are opaque records. Their duration, waiting time, violation counts, feasibility flag and stop rows are given values. Module `VrpCost` (`vrp_cost.dfy`) holds the cost tuple and the order. Module `VrpSolution` (`vrp_solution.dfy`) holds the fleet operations.

2. **`eucledianTSP`** (`src/tsp/src/eucledianTSP.c`). This is the host entry point of the simulated-annealing TSP. The model covers:
   - the ordered checks of the seven annealing parameters;
   - the empty-input short cut;
   - the discarding of results when the solver reports an error;
   - the set-returning protocol that numbers the output rows from 1.

   The annealing solver is passed in as a function parameter. The coordinate query is replaced by the coordinates it would return. This is module `EucledianTsp` (`eucledian_tsp.dfy`).

Points where the source's comments or messages say one thing and its code does another, and how the model reads them:
- **Field order in the cost tuple.** The comments inside `operator<` (`solution.cpp:163-173`) call field 0 "capacity violations" and field 1 "time window violations". The tuple built at `solution.cpp:111-113` puts the time-window total in field 0 and the capacity total in field 1. The model follows the tuple.
- **Equal temperatures.** The error message at `eucledianTSP.c:82` says `initial_temperature > final_temperature`. The check on line 81 rejects only `initial_temperature < final_temperature`, so equal temperatures are accepted (`EucledianTsp.EqualTemperaturesAccepted`).

Modelling choices:
- **Only a strict comparison.** `operator<` is the only comparison `solution.cpp` defines. The model proves that two costs are unordered by it exactly when they are equal.
- **Feasibility.** `is_feasable()` asks each vehicle for its own flag (`solution.cpp:56-57`). The model keeps that flag separate from the vehicle's violation counts and does not relate the two.

## Model

| member | source | states |
|---|---|---|
| VrpCost.Less | src/pickDeliver/src/solution.cpp:158-204 | `operator<` on two cost tuples: a smaller cost is never equal to the other cost, and its time-window total (the field compared first) is never the larger one |
| VrpCost.FirstDifferenceDecides | src/pickDeliver/src/solution.cpp:166-201 | The first field (in order twv, cv, fleet size, wait, duration) where two costs differ decides `<`, and all later fields are ignored |
| VrpCost.LessIsLexicographic | src/pickDeliver/src/solution.cpp:158-204 | `a < b` holds exactly when some field position has `a` smaller there and all earlier fields equal; this is the lexicographic order on the tuple |
| VrpCost.LessIrreflexive | src/pickDeliver/src/solution.cpp:198-203 | If all five fields are equal, `<` is false, so no cost is less than itself |
| VrpCost.LessAsymmetric | src/pickDeliver/src/solution.cpp:158-204 | `a < b` and `b < a` never both hold |
| VrpCost.LessTransitive | src/pickDeliver/src/solution.cpp:158-204 | `a < b` and `b < c` imply `a < c` |
| VrpCost.LessTrichotomous | src/pickDeliver/src/solution.cpp:158-204 | For any two costs, exactly one of `a < b`, `a == b`, `b < a` holds |
| VrpCost.KeyInjective | src/pickDeliver/src/solution.cpp:111-113 | Two cost tuples are equal exactly when their five compared fields are equal |
| VrpSolution.CostOf | src/pickDeliver/src/solution.cpp:99-114 | The cost tuple of a solution: its fleet-size field is the fleet length, and an empty fleet costs (0, 0, 0, 0, 0) |
| VrpSolution.IsFeasable | src/pickDeliver/src/solution.cpp:54-61 | The solution is feasible iff every vehicle reports itself feasible; an empty fleet is feasible |
| VrpSolution.Duration | src/pickDeliver/src/solution.cpp:63-70 | The fleet-order loop returns the sum of all vehicles' durations (0 for an empty fleet) |
| VrpSolution.TwcTot | src/pickDeliver/src/solution.cpp:72-79 | The loop returns the sum of all vehicles' time-window violation counts |
| VrpSolution.WaitTime | src/pickDeliver/src/solution.cpp:81-88 | The loop returns the sum of all vehicles' waiting times |
| VrpSolution.CvTot | src/pickDeliver/src/solution.cpp:90-97 | The loop returns the sum of all vehicles' capacity violation counts |
| VrpSolution.TotalsAppend | src/pickDeliver/src/solution.cpp:63-97 | Every total is 0 on an empty fleet; appending a vehicle adds that vehicle's own value to each total and 1 to the fleet size |
| VrpSolution.ComputeCost | src/pickDeliver/src/solution.cpp:99-114 | The one-pass cost has twv, cv, wait and duration equal to the sums that `TwcTot`, `CvTot`, `WaitTime` and `Duration` return, and fleet size equal to the fleet length |
| VrpSolution.SolutionLess | src/pickDeliver/src/solution.cpp:158-161 | `Solution::operator<`: a solution is never less than one with an equal cost tuple, and a smaller solution never has more time-window violations in total |
| VrpSolution.SolutionLessIsStrictWeakOrder | src/pickDeliver/src/solution.cpp:158-161 | Comparing solutions by their costs is irreflexive, asymmetric and transitive; two solutions are unordered exactly when their cost tuples are equal |
| VrpSolution.GetPostgresResult | src/pickDeliver/src/solution.cpp:38-50 | The rows already in the result are kept as a prefix; what follows is every vehicle's rows in fleet order, vehicle k numbered k+1; the length grows by the sum of the vehicles' row counts; row j of vehicle k sits right after the original rows and the rows of vehicles 0..k-1, unchanged and tagged k+1 |
| VrpSolution.PlacementInExport | src/pickDeliver/src/solution.cpp:41-48 | In the original rows followed by the fleet's export, row j of vehicle k comes right after the original rows and the rows of vehicles 0..k-1; it is unchanged and tagged with vehicle number k+1 |
| VrpSolution.FleetRowsOrdered | src/pickDeliver/src/solution.cpp:42-49 | Vehicle numbers in the exported rows never decrease and lie between 1 and the fleet size |
| VrpSolution.FleetRowsLength | src/pickDeliver/src/solution.cpp:43-46 | The exported rows number exactly the sum of the vehicles' row counts |
| VrpSolution.FleetRowsAppend | src/pickDeliver/src/solution.cpp:43-49 | Exporting `fleet + [v]` gives the export of `fleet` followed by `v`'s rows, numbered one past the last vehicle of `fleet` |
| EucledianTsp.Validate | src/tsp/src/eucledianTSP.c:81-101 | Accepts exactly when initial >= final, final > 0, 0 < cooling < 1, tries >= 0, max changes >= 1, max consecutive >= 1 and time limit >= 0; otherwise it reports the failing check that comes first in source order |
| EucledianTsp.RejectedIffSomeCheckFails | src/tsp/src/eucledianTSP.c:81-101 | A configuration is rejected iff at least one of the seven checks fails |
| EucledianTsp.EqualTemperaturesAccepted | src/tsp/src/eucledianTSP.c:81-83 | Equal initial and final temperatures pass the first check; such a configuration is accepted iff the other six checks pass |
| EucledianTsp.Process | src/tsp/src/eucledianTSP.c:78-145 | Coordinates are fetched only for an accepted configuration, and the solver is called only when there are coordinates. An invalid configuration raises its first failing check. An empty coordinate set gives zero tuples. A solver error raises an error carrying the solver's own message and discards the tuples; with no solver error the solver's tuples are returned |
| EucledianTsp.MaxCalls | src/tsp/src/eucledianTSP.c:218 | The row count is cast to 32 bits: the result is below 2^32 and congruent to the count modulo 2^32 (it wraps, not saturates), so it is unchanged for any count below 2^32 |
| EucledianTsp.Int32Of | src/tsp/src/eucledianTSP.c:261 | The sequence number is the unsigned 32-bit value read as a signed 32-bit value: it lies in the int32 range and is congruent to the input modulo 2^32 |
| EucledianTsp.PerCall | src/tsp/src/eucledianTSP.c:238-275 | One call of the set-returning function: it yields a row exactly while the call counter is below the 32-bit row count, with node, cost and aggregate cost of tuple `call_cntr`, numbered `call_cntr + 1` below 2^31; afterwards it is done |
| EucledianTsp.ReturnRows | src/tsp/src/eucledianTSP.c:232-275 | Repeated calls until done give `(uint32) result_count` rows; row k has sequence number k+1 (as int32) and node, cost and aggregate cost copied from tuple k |
| EucledianTsp.RowsNumberedFromOne | src/tsp/src/eucledianTSP.c:238-264 | For fewer than 2^31 tuples there is one row per tuple, numbered from 1, with its values unchanged |
| EucledianTsp.EucledianTSP | src/tsp/src/eucledianTSP.c:155-276 | An error gives no rows. An invalid configuration fails with its first failing check, and a solver error fails with the solver's message. An empty coordinate set gives zero rows. An accepted, non-empty, error-free solve always returns rows: `(uint32) result_count` of them, row k numbered k+1 (as int32) with tuple k's values; below 2^31 tuples there is exactly one row per tuple, numbered from 1 |

## Left out

- The simulated-annealing search (`do_pgr_eucledianTSP` and its driver) is not part of this model. It is a function parameter, so nothing is claimed about tours, moves, cooling or termination.
- The internals of `Vehicle_pickDeliver` are not part of this model. A vehicle's duration, waiting time, violation counts, feasibility and stop rows are recorded values. A vehicle's own export, given number `n`, is modelled as its stop rows in order, each stamped with `n`.
- PostgreSQL plumbing is host I/O and memory management, so it is left out: SPI connect/finish, `elog`/`ereport` mechanics, SRF memory contexts, `get_call_result_type`, `heap_form_tuple`, `Datum` conversion beyond the int32 sequence number, `pfree`/`free`.
- `pgr_get_coordinates` is I/O. The coordinates it would return are a parameter.
- `time_msg`, `clock()`, debug output and the solver's NOTICE log message are left out because they are wall-clock and logging side effects.
- `cost_str`, `tau` and `operator<<` in `solution.cpp` are left out because they only format text for debugging.
- The error message texts are not modelled. Each check is identified by its own constructor.
- Doubles are modelled as exact reals, so IEEE-754 rounding, NaN and infinities are not modelled. In particular `max_processing_time` defaults to `+infinity` (`eucledianTSP.c:184`), so the most common call passes an infinite time limit; the check at line 99 accepts it (`inf < 0` is false), but the model has no value for it and covers only finite limits. With NaN, every comparison in the parameter checks is false, so the C code would accept a NaN parameter; the model cannot express that. With NaN costs, `operator<` would not be a strict order. The match between `cost()` and the separate totals also relies on both summing in the same fleet order, which the source does.
- Integer widths on the fleet side are not modelled. The `int` sums of violation counts and the `int` vehicle counter are unbounded here, so 32-bit overflow is outside the model.
- `start_vid`, `end_vid` and `randomize` are passed to the solver unchanged. They are carried in `Params` but are not checked by the entry point.

=== FILE: eucledian_tsp.dfy ===
/**
 The host entry point of the Euclidean TSP: the gate on the seven annealing
 parameters, the empty-input short cut, the discarding of results when the
 solver reports an error, and the numbering of the returned rows.

 The annealing search itself is a parameter (`solver`); the coordinate query
 is replaced by the coordinates it would return. Doubles are reals.
 */
module EucledianTsp {

  datatype Option<T> = None | Some(value: T)

  datatype Coordinate = Coordinate(id: int, x: real, y: real)

  /** What the entry point reads from one solver result tuple. */
  datatype PathElement = PathElement(node: int, cost: real, aggCost: real)

  /** The arguments of `process`, by name. */
  datatype Params = Params(
    startVid: int,
    endVid: int,
    timeLimit: real,
    triesPerTemperature: int,
    maxChangesPerTemperature: int,
    maxConsecutiveNonChanges: int,
    initialTemperature: real,
    finalTemperature: real,
    coolingFactor: real,
    randomize: bool)

  /** The seven parameter checks, named by the condition they demand. */
  datatype ParamCheck =
    | InitialNotBelowFinal
    | FinalPositive
    | CoolingInOpenUnitInterval
    | TriesNonNegative
    | ChangesPositive
    | ConsecutivePositive
    | TimeLimitNonNegative
  {
    /** Position of the check in source order, from 0. */
    function Index(): (i: nat)
    {
      match this
      case InitialNotBelowFinal => 0
      case FinalPositive => 1
      case CoolingInOpenUnitInterval => 2
      case TriesNonNegative => 3
      case ChangesPositive => 4
      case ConsecutivePositive => 5
      case TimeLimitNonNegative => 6
    }
  }

  /** The condition under which `process` raises the error of check `c`. */
  predicate Fails(p: Params, c: ParamCheck)
  {
    match c
    case InitialNotBelowFinal => p.initialTemperature < p.finalTemperature
    case FinalPositive => p.finalTemperature <= 0.0
    case CoolingInOpenUnitInterval => p.coolingFactor <= 0.0 || p.coolingFactor >= 1.0
    case TriesNonNegative => p.triesPerTemperature < 0
    case ChangesPositive => p.maxChangesPerTemperature < 1
    case ConsecutivePositive => p.maxConsecutiveNonChanges < 1
    case TimeLimitNonNegative => p.timeLimit < 0.0
  }

  /** The configuration the entry point lets through, stated as what it
      demands. Equal temperatures are allowed. */
  predicate Acceptable(p: Params)
  {
    && p.initialTemperature >= p.finalTemperature
    && p.finalTemperature > 0.0
    && 0.0 < p.coolingFactor < 1.0
    && p.triesPerTemperature >= 0
    && p.maxChangesPerTemperature >= 1
    && p.maxConsecutiveNonChanges >= 1
    && p.timeLimit >= 0.0
  }

  datatype Validation = Ok | Rejected(failed: ParamCheck)

  /** The parameter checks of `process`, made one after the other; the first
      that fails raises its error. */
  function Validate(p: Params): (r: Validation)
    ensures r.Ok? <==> Acceptable(p)
    ensures r.Rejected? ==> Fails(p, r.failed)
    ensures r.Rejected? ==> forall c: ParamCheck :: c.Index() < r.failed.Index() ==> !Fails(p, c)
  {
    if p.initialTemperature < p.finalTemperature then Rejected(InitialNotBelowFinal)
    else if p.finalTemperature <= 0.0 then Rejected(FinalPositive)
    else if p.coolingFactor <= 0.0 || p.coolingFactor >= 1.0 then Rejected(CoolingInOpenUnitInterval)
    else if p.triesPerTemperature < 0 then Rejected(TriesNonNegative)
    else if p.maxChangesPerTemperature < 1 then Rejected(ChangesPositive)
    else if p.maxConsecutiveNonChanges < 1 then Rejected(ConsecutivePositive)
    else if p.timeLimit < 0.0 then Rejected(TimeLimitNonNegative)
    else Ok
  }

  /** The configuration is rejected exactly when one of the seven checks
      fails. */
  lemma RejectedIffSomeCheckFails(p: Params)
    ensures Validate(p).Rejected? <==> exists c: ParamCheck :: Fails(p, c)
  {
  }

  /** Equal initial and final temperatures pass the first check: the
      configuration is accepted as soon as the other six checks pass. */
  lemma EqualTemperaturesAccepted(p: Params)
    requires p.initialTemperature == p.finalTemperature
    ensures !Fails(p, InitialNotBelowFinal)
    ensures Validate(p).Ok? <==> forall c: ParamCheck :: c != InitialNotBelowFinal ==> !Fails(p, c)
  {
  }

  /** What the solver hands back: its result tuples and, possibly, an error
      message. */
  datatype SolverOutput = SolverOutput(tuples: seq<PathElement>, errMsg: Option<string>)

  datatype TspError = InvalidParameter(check: ParamCheck) | SolverError(msg: string)

  /** How `process` ends: with an error raised, or with result tuples (none
      for an empty coordinate set). */
  datatype Outcome = Raised(error: TspError) | Tuples(tuples: seq<PathElement>)

  /** One run of `process`: whether the coordinates were fetched, whether the
      solver was called, and how it ended. */
  datatype ProcessRun = ProcessRun(fetchedCoordinates: bool, calledSolver: bool, outcome: Outcome)

  /** `process`: checks the parameters, fetches the coordinates, returns no
      tuples for an empty set, otherwise calls the solver and discards its
      tuples when it reports an error. */
  function Process(p: Params, coordinates: seq<Coordinate>,
                   solver: (seq<Coordinate>, Params) -> SolverOutput): (run: ProcessRun)
    ensures run.fetchedCoordinates <==> Acceptable(p)
    ensures run.calledSolver <==> Acceptable(p) && |coordinates| > 0
    ensures run.outcome.Raised? && run.outcome.error.InvalidParameter? <==> !Acceptable(p)
    ensures !Acceptable(p) ==> run.outcome.error.check == Validate(p).failed
    ensures Acceptable(p) && |coordinates| == 0 ==> run.outcome == Tuples([])
    ensures run.outcome.Raised? && run.outcome.error.SolverError? <==>
              run.calledSolver && solver(coordinates, p).errMsg.Some?
    ensures run.outcome.Raised? && run.outcome.error.SolverError? ==>
              run.outcome.error.msg == solver(coordinates, p).errMsg.value
    ensures run.outcome.Tuples? && run.calledSolver ==> run.outcome.tuples == solver(coordinates, p).tuples
    ensures Acceptable(p) && |coordinates| > 0 && solver(coordinates, p).errMsg.None? ==>
              run.outcome == Tuples(solver(coordinates, p).tuples)
  {
    match Validate(p)
    case Rejected(check) => ProcessRun(false, false, Raised(InvalidParameter(check)))
    case Ok =>
      if |coordinates| == 0 then ProcessRun(true, false, Tuples([]))
      else
        var out := solver(coordinates, p);
        match out.errMsg
        case Some(msg) => ProcessRun(true, true, Raised(SolverError(msg)))
        case None => ProcessRun(true, true, Tuples(out.tuples))
  }

  // The set-returning function protocol: one call per row.

  const UINT32_RANGE: nat := 0x1_0000_0000
  const INT32_RANGE: nat := 0x8000_0000

  /** `(uint32_t) result_count`: the count reduced modulo 2^32. */
  function MaxCalls(resultCount: nat): (n: nat)
    ensures n < UINT32_RANGE
    ensures (resultCount - n) % UINT32_RANGE == 0
    ensures resultCount < UINT32_RANGE ==> n == resultCount
  {
    resultCount % UINT32_RANGE
  }

  /** `Int32GetDatum` of an unsigned 32-bit value: two's complement wrap. */
  function Int32Of(x: nat): (r: int)
    requires x < UINT32_RANGE
    ensures -(INT32_RANGE as int) <= r < INT32_RANGE
    ensures r % UINT32_RANGE == x
  {
    if x < INT32_RANGE then x else x - UINT32_RANGE
  }

  datatype OutRow = OutRow(seqNo: int, node: int, cost: real, aggCost: real)

  datatype CallResult = Next(row: OutRow) | Done

  /** The call numbered `callCntr` (from 0): the next row while the counter is
      below the 32-bit row count, carrying tuple `callCntr`'s values and, below
      2^31, the number `callCntr + 1`; done afterwards. */
  function PerCall(tuples: seq<PathElement>, callCntr: nat): (step: CallResult)
    ensures step.Next? <==> callCntr < MaxCalls(|tuples|)
    ensures step.Next? ==> && step.row.node == tuples[callCntr].node
                           && step.row.cost == tuples[callCntr].cost
                           && step.row.aggCost == tuples[callCntr].aggCost
    ensures step.Next? && callCntr + 1 < INT32_RANGE ==> step.row.seqNo == callCntr + 1
  {
    if callCntr < MaxCalls(|tuples|) then
      var t := tuples[callCntr];
      Next(OutRow(Int32Of(callCntr + 1), t.node, t.cost, t.aggCost))
    else Done
  }

  /** Drives the calls until one reports done, collecting the rows: there are
      `(uint32_t) result_count` of them, row `k` numbered `k + 1` (as a signed
      32-bit value) with node, cost and aggregate cost copied from tuple `k`. */
  method ReturnRows(tuples: seq<PathElement>) returns (rows: seq<OutRow>)
    ensures |rows| == MaxCalls(|tuples|)
    ensures forall k :: 0 <= k < |rows| ==>
              rows[k] == OutRow(Int32Of(k + 1), tuples[k].node, tuples[k].cost, tuples[k].aggCost)
  {
    rows := [];
    var callCntr := 0;
    var step := PerCall(tuples, callCntr);
    while step.Next?
      invariant callCntr <= MaxCalls(|tuples|)
      invariant step == PerCall(tuples, callCntr)
      invariant |rows| == callCntr
      invariant forall k :: 0 <= k < |rows| ==>
                  rows[k] == OutRow(Int32Of(k + 1), tuples[k].node, tuples[k].cost, tuples[k].aggCost)
      decreases MaxCalls(|tuples|) - callCntr
    {
      rows := rows + [step.row];
      callCntr := callCntr + 1;
      step := PerCall(tuples, callCntr);
    }
  }

  /** For any result shorter than 2^31 rows, every tuple yields exactly one
      row, numbered from 1, with its values unchanged. */
  lemma RowsNumberedFromOne(tuples: seq<PathElement>, rows: seq<OutRow>)
    requires |tuples| < INT32_RANGE
    requires |rows| == MaxCalls(|tuples|)
    requires forall k :: 0 <= k < |rows| ==>
               rows[k] == OutRow(Int32Of(k + 1), tuples[k].node, tuples[k].cost, tuples[k].aggCost)
    ensures |rows| == |tuples|
    ensures forall k :: 0 <= k < |rows| ==>
              rows[k].seqNo == k + 1 && rows[k].node == tuples[k].node
              && rows[k].cost == tuples[k].cost && rows[k].aggCost == tuples[k].aggCost
  {
  }

  datatype Reply = Failed(error: TspError) | Rows(rows: seq<OutRow>)

  /** `eucledianTSP`: runs `process` once and returns its tuples as numbered
      rows; an error leaves no rows at all, and a successful solve always
      returns the solver's tuples as rows. */
  method EucledianTSP(p: Params, coordinates: seq<Coordinate>,
                      solver: (seq<Coordinate>, Params) -> SolverOutput) returns (reply: Reply)
    ensures !Acceptable(p) ==> reply == Failed(InvalidParameter(Validate(p).failed))
    ensures Acceptable(p) && |coordinates| == 0 ==> reply == Rows([])
    ensures Acceptable(p) && |coordinates| > 0 && solver(coordinates, p).errMsg.Some? ==>
              reply == Failed(SolverError(solver(coordinates, p).errMsg.value))
    ensures reply.Rows? ==> Acceptable(p) && (|coordinates| == 0 || solver(coordinates, p).errMsg.None?)
    ensures Acceptable(p) && |coordinates| > 0 && solver(coordinates, p).errMsg.None? ==>
              var tuples := solver(coordinates, p).tuples;
              && reply.Rows?
              && |reply.rows| == MaxCalls(|tuples|)
              && forall k :: 0 <= k < |reply.rows| ==>
                   reply.rows[k] == OutRow(Int32Of(k + 1), tuples[k].node, tuples[k].cost, tuples[k].aggCost)
    ensures reply.Rows? && |coordinates| > 0 && |solver(coordinates, p).tuples| < INT32_RANGE ==>
              var tuples := solver(coordinates, p).tuples;
              && |reply.rows| == |tuples|
              && forall k :: 0 <= k < |tuples| ==>
                   reply.rows[k] == OutRow(k + 1, tuples[k].node, tuples[k].cost, tuples[k].aggCost)
  {
    var run := Process(p, coordinates, solver);
    match run.outcome
    case Raised(e) =>
      reply := Failed(e);
    case Tuples(tuples) =>
      var rows := ReturnRows(tuples);
      reply := Rows(rows);
  }
}

=== FILE: vrp_cost.dfy ===
/**
 The cost of a pickup-and-delivery solution and the strict order used to rank
 solutions.

 A cost is the 5-tuple that `Solution::cost()` assembles, in tuple order:
 time-window violations, capacity violations, fleet size, total waiting time
 and total duration. `Less` is `Solution::operator<` applied to two such
 tuples. The comments inside that operator name field 0 "capacity violations"
 and field 1 "time window violations"; the tuple itself holds the time-window
 count in field 0 and the capacity count in field 1, and this model follows
 the tuple.
 */
module VrpCost {

  /** The cost tuple of a solution. Wait time and duration are sums of doubles
      in the source; they are exact reals here. */
  datatype Cost = Cost(twv: int, cv: int, fleetSize: nat, waitTime: real, duration: real)

  /** `operator<` on two cost tuples: each field in turn decides on a strict
      difference and passes to the next field on a tie; a full tie is not less.
      A smaller cost is a different cost, and its time-window total, the field
      compared first, is never the larger one. */
  function Less(lhs: Cost, rhs: Cost): (r: bool)
    ensures r ==> lhs != rhs
    ensures r ==> lhs.twv <= rhs.twv
  {
    if lhs.twv < rhs.twv then true
    else if lhs.twv > rhs.twv then false
    else if lhs.cv < rhs.cv then true
    else if lhs.cv > rhs.cv then false
    else if lhs.fleetSize < rhs.fleetSize then true
    else if lhs.fleetSize > rhs.fleetSize then false
    else if lhs.waitTime < rhs.waitTime then true
    else if lhs.waitTime > rhs.waitTime then false
    else if lhs.duration < rhs.duration then true
    else if lhs.duration > rhs.duration then false
    else false
  }

  /** The five fields as one sequence of reals, in comparison priority order. */
  function Key(c: Cost): (k: seq<real>)
    ensures |k| == 5
  {
    [c.twv as real, c.cv as real, c.fleetSize as real, c.waitTime, c.duration]
  }

  /** Position `i` is the first one where the keys of `a` and `b` differ,
      and there `a` is the smaller. */
  predicate DecidedAt(a: Cost, b: Cost, i: nat)
    requires i < 5
  {
    && (forall j :: 0 <= j < i ==> Key(a)[j] == Key(b)[j])
    && Key(a)[i] < Key(b)[i]
  }

  /** Two costs are equal exactly when all five fields agree. */
  lemma KeyInjective(a: Cost, b: Cost)
    ensures Key(a) == Key(b) <==> a == b
  {
  }

  /** The first field where the costs differ decides, and every later field
      is ignored. */
  lemma FirstDifferenceDecides(a: Cost, b: Cost, i: nat)
    requires i < 5
    requires forall j :: 0 <= j < i ==> Key(a)[j] == Key(b)[j]
    requires Key(a)[i] != Key(b)[i]
    ensures Less(a, b) <==> Key(a)[i] < Key(b)[i]
  {
    if i > 0 { assert Key(a)[0] == Key(b)[0]; }
    if i > 1 { assert Key(a)[1] == Key(b)[1]; }
    if i > 2 { assert Key(a)[2] == Key(b)[2]; }
    if i > 3 { assert Key(a)[3] == Key(b)[3]; }
  }

  /** `Less` is exactly the lexicographic order on the keys: `a` is less than
      `b` iff some position decides in favour of `a`. */
  lemma LessIsLexicographic(a: Cost, b: Cost)
    ensures Less(a, b) <==> exists i :: 0 <= i < 5 && DecidedAt(a, b, i)
  {
    var ka, kb := Key(a), Key(b);
    if ka[0] != kb[0] {
      FirstDifferenceDecides(a, b, 0);
      if Less(a, b) { assert DecidedAt(a, b, 0); }
    } else if ka[1] != kb[1] {
      FirstDifferenceDecides(a, b, 1);
      if Less(a, b) { assert DecidedAt(a, b, 1); }
    } else if ka[2] != kb[2] {
      FirstDifferenceDecides(a, b, 2);
      if Less(a, b) { assert DecidedAt(a, b, 2); }
    } else if ka[3] != kb[3] {
      FirstDifferenceDecides(a, b, 3);
      if Less(a, b) { assert DecidedAt(a, b, 3); }
    } else if ka[4] != kb[4] {
      FirstDifferenceDecides(a, b, 4);
      if Less(a, b) { assert DecidedAt(a, b, 4); }
    } else {
      assert ka == kb;
      KeyInjective(a, b);
    }
  }

  /** A cost is never less than itself; more generally, equal costs are not
      ordered. */
  lemma LessIrreflexive(a: Cost, b: Cost)
    requires Key(a) == Key(b)
    ensures !Less(a, b)
  {
  }

  /** At most one of `a < b` and `b < a` holds. */
  lemma LessAsymmetric(a: Cost, b: Cost)
    requires Less(a, b)
    ensures !Less(b, a)
  {
  }

  /** `Less` is transitive. */
  lemma LessTransitive(a: Cost, b: Cost, c: Cost)
    requires Less(a, b) && Less(b, c)
    ensures Less(a, c)
  {
  }

  /** Any two different costs are ordered one way or the other, so exactly one
      of `a < b`, `a == b`, `b < a` holds. */
  lemma LessTrichotomous(a: Cost, b: Cost)
    ensures Less(a, b) || a == b || Less(b, a)
    ensures a == b ==> !Less(a, b)
  {
  }
}

=== FILE: vrp_solution.dfy ===
/**
 A pickup-and-delivery solution: an ordered fleet of vehicles, the reductions
 over it, its cost tuple, its feasibility, the order between solutions and the
 export of every vehicle's stop rows.

 A vehicle is opaque here: its duration, waiting time, violation counts,
 feasibility flag and stop rows are recorded values, not computed from a
 route. Feasibility is NOT assumed to mean zero violations.
 */
module VrpSolution {
  import opened VrpCost

  /** One stop row of a vehicle's own export, before it is stamped with the
      vehicle's number. The layout of that row belongs to the vehicle and is
      not part of this model; the fields are placeholders, never read, that
      only let rows be told apart. */
  datatype StopRow = StopRow(sequence: int, nodeId: int, cost: real, aggCost: real)

  /** A row of the solution's export: a stop row tagged with the 1-based
      number of the vehicle that produced it. */
  datatype OrderRow = OrderRow(vehicleNumber: int, stop: StopRow)

  /** What the solution reads from a vehicle. */
  datatype Vehicle = Vehicle(
    duration: real,
    totalWaitTime: real,
    twvTot: int,
    cvTot: int,
    feasible: bool,
    stops: seq<StopRow>)

  datatype Solution = Solution(fleet: seq<Vehicle>)

  // Sums, defined head first; the source accumulates left to right, and the
  // append lemmas below connect the two.

  function SumInt(xs: seq<int>): (total: int)
  {
    if |xs| == 0 then 0 else xs[0] + SumInt(xs[1..])
  }

  function SumReal(xs: seq<real>): (total: real)
  {
    if |xs| == 0 then 0.0 else xs[0] + SumReal(xs[1..])
  }

  lemma {:induction false} SumIntAppend(xs: seq<int>, x: int)
    ensures SumInt(xs + [x]) == SumInt(xs) + x
  {
    if |xs| == 0 {
      assert xs + [x] == [x];
    } else {
      assert (xs + [x])[1..] == xs[1..] + [x];
      SumIntAppend(xs[1..], x);
    }
  }

  lemma {:induction false} SumRealAppend(xs: seq<real>, x: real)
    ensures SumReal(xs + [x]) == SumReal(xs) + x
  {
    if |xs| == 0 {
      assert xs + [x] == [x];
    } else {
      assert (xs + [x])[1..] == xs[1..] + [x];
      SumRealAppend(xs[1..], x);
    }
  }

  // Per-vehicle values, in fleet order.

  function Durations(fleet: seq<Vehicle>): (values: seq<real>)
  {
    seq(|fleet|, i requires 0 <= i < |fleet| => fleet[i].duration)
  }

  function WaitTimes(fleet: seq<Vehicle>): (values: seq<real>)
  {
    seq(|fleet|, i requires 0 <= i < |fleet| => fleet[i].totalWaitTime)
  }

  function Twvs(fleet: seq<Vehicle>): (values: seq<int>)
  {
    seq(|fleet|, i requires 0 <= i < |fleet| => fleet[i].twvTot)
  }

  function Cvs(fleet: seq<Vehicle>): (values: seq<int>)
  {
    seq(|fleet|, i requires 0 <= i < |fleet| => fleet[i].cvTot)
  }

  function RowCounts(fleet: seq<Vehicle>): (values: seq<int>)
  {
    seq(|fleet|, i requires 0 <= i < |fleet| => |fleet[i].stops|)
  }

  /** Appending a vehicle appends its value to every per-vehicle sequence. */
  lemma ValuesAppend(fleet: seq<Vehicle>, v: Vehicle)
    ensures Durations(fleet + [v]) == Durations(fleet) + [v.duration]
    ensures WaitTimes(fleet + [v]) == WaitTimes(fleet) + [v.totalWaitTime]
    ensures Twvs(fleet + [v]) == Twvs(fleet) + [v.twvTot]
    ensures Cvs(fleet + [v]) == Cvs(fleet) + [v.cvTot]
    ensures RowCounts(fleet + [v]) == RowCounts(fleet) + [|v.stops|]
  {
  }

  /** The cost tuple of a solution: time-window violations, capacity
      violations, fleet size, waiting time and duration. Its size field is the
      fleet length and an empty fleet costs nothing. */
  function CostOf(s: Solution): (c: Cost)
    ensures c.fleetSize == |s.fleet|
    ensures s.fleet == [] ==> c == Cost(0, 0, 0, 0.0, 0.0)
  {
    Cost(SumInt(Twvs(s.fleet)), SumInt(Cvs(s.fleet)), |s.fleet|,
         SumReal(WaitTimes(s.fleet)), SumReal(Durations(s.fleet)))
  }

  /** Every total is 0 on an empty fleet, and adding a vehicle at the end adds
      that vehicle's own value to each total and one to the fleet size. */
  lemma TotalsAppend(fleet: seq<Vehicle>, v: Vehicle)
    ensures CostOf(Solution([])) == Cost(0, 0, 0, 0.0, 0.0)
    ensures var before, after := CostOf(Solution(fleet)), CostOf(Solution(fleet + [v]));
            && after.twv == before.twv + v.twvTot
            && after.cv == before.cv + v.cvTot
            && after.fleetSize == before.fleetSize + 1
            && after.waitTime == before.waitTime + v.totalWaitTime
            && after.duration == before.duration + v.duration
  {
    ValuesAppend(fleet, v);
    SumIntAppend(Twvs(fleet), v.twvTot);
    SumIntAppend(Cvs(fleet), v.cvTot);
    SumRealAppend(WaitTimes(fleet), v.totalWaitTime);
    SumRealAppend(Durations(fleet), v.duration);
  }

  /** `Solution::duration()`: the vehicles' durations added up in fleet order. */
  method Duration(s: Solution) returns (total: real)
    ensures total == SumReal(Durations(s.fleet))
  {
    total := 0.0;
    var i := 0;
    while i < |s.fleet|
      invariant 0 <= i <= |s.fleet|
      invariant total == SumReal(Durations(s.fleet[..i]))
    {
      assert s.fleet[..i + 1] == s.fleet[..i] + [s.fleet[i]];
      ValuesAppend(s.fleet[..i], s.fleet[i]);
      SumRealAppend(Durations(s.fleet[..i]), s.fleet[i].duration);
      total := total + s.fleet[i].duration;
      i := i + 1;
    }
    assert s.fleet[..i] == s.fleet;
  }

  /** `Solution::twcTot()`: the vehicles' time-window violation counts added up. */
  method TwcTot(s: Solution) returns (total: int)
    ensures total == SumInt(Twvs(s.fleet))
  {
    total := 0;
    var i := 0;
    while i < |s.fleet|
      invariant 0 <= i <= |s.fleet|
      invariant total == SumInt(Twvs(s.fleet[..i]))
    {
      assert s.fleet[..i + 1] == s.fleet[..i] + [s.fleet[i]];
      ValuesAppend(s.fleet[..i], s.fleet[i]);
      SumIntAppend(Twvs(s.fleet[..i]), s.fleet[i].twvTot);
      total := total + s.fleet[i].twvTot;
      i := i + 1;
    }
    assert s.fleet[..i] == s.fleet;
  }

  /** `Solution::wait_time()`: the vehicles' waiting times added up. */
  method WaitTime(s: Solution) returns (total: real)
    ensures total == SumReal(WaitTimes(s.fleet))
  {
    total := 0.0;
    var i := 0;
    while i < |s.fleet|
      invariant 0 <= i <= |s.fleet|
      invariant total == SumReal(WaitTimes(s.fleet[..i]))
    {
      assert s.fleet[..i + 1] == s.fleet[..i] + [s.fleet[i]];
      ValuesAppend(s.fleet[..i], s.fleet[i]);
      SumRealAppend(WaitTimes(s.fleet[..i]), s.fleet[i].totalWaitTime);
      total := total + s.fleet[i].totalWaitTime;
      i := i + 1;
    }
    assert s.fleet[..i] == s.fleet;
  }

  /** `Solution::cvTot()`: the vehicles' capacity violation counts added up. */
  method CvTot(s: Solution) returns (total: int)
    ensures total == SumInt(Cvs(s.fleet))
  {
    total := 0;
    var i := 0;
    while i < |s.fleet|
      invariant 0 <= i <= |s.fleet|
      invariant total == SumInt(Cvs(s.fleet[..i]))
    {
      assert s.fleet[..i + 1] == s.fleet[..i] + [s.fleet[i]];
      ValuesAppend(s.fleet[..i], s.fleet[i]);
      SumIntAppend(Cvs(s.fleet[..i]), s.fleet[i].cvTot);
      total := total + s.fleet[i].cvTot;
      i := i + 1;
    }
    assert s.fleet[..i] == s.fleet;
  }

  /** `Solution::cost()`: one pass with four accumulators. Each field equals
      the matching separate reduction, field 2 is the fleet length, and the
      tuple is the one `CostOf` ranks solutions by. */
  method ComputeCost(s: Solution) returns (c: Cost)
    ensures c.twv == SumInt(Twvs(s.fleet))
    ensures c.cv == SumInt(Cvs(s.fleet))
    ensures c.fleetSize == |s.fleet|
    ensures c.waitTime == SumReal(WaitTimes(s.fleet))
    ensures c.duration == SumReal(Durations(s.fleet))
    ensures c == CostOf(s)
  {
    var totalDuration, totalWaitTime, totalTwv, totalCv := 0.0, 0.0, 0, 0;
    var i := 0;
    while i < |s.fleet|
      invariant 0 <= i <= |s.fleet|
      invariant Cost(totalTwv, totalCv, i, totalWaitTime, totalDuration) == CostOf(Solution(s.fleet[..i]))
    {
      var v := s.fleet[i];
      assert s.fleet[..i + 1] == s.fleet[..i] + [v];
      TotalsAppend(s.fleet[..i], v);
      totalDuration := totalDuration + v.duration;
      totalWaitTime := totalWaitTime + v.totalWaitTime;
      totalTwv := totalTwv + v.twvTot;
      totalCv := totalCv + v.cvTot;
      i := i + 1;
    }
    assert s.fleet[..i] == s.fleet;
    c := Cost(totalTwv, totalCv, |s.fleet|, totalWaitTime, totalDuration);
  }

  /** `Solution::is_feasable()`: stops at the first infeasible vehicle; true
      iff every vehicle reports itself feasible, so an empty fleet is feasible. */
  method IsFeasable(s: Solution) returns (ok: bool)
    ensures ok <==> forall i :: 0 <= i < |s.fleet| ==> s.fleet[i].feasible
  {
    var i := 0;
    while i < |s.fleet|
      invariant 0 <= i <= |s.fleet|
      invariant forall j :: 0 <= j < i ==> s.fleet[j].feasible
    {
      if !s.fleet[i].feasible {
        return false;
      }
      i := i + 1;
    }
    return true;
  }

  /** `Solution::operator<`: compares the cost tuples of both solutions. A
      solution is never less than one of equal cost, and a smaller solution
      never has more time-window violations in total. */
  function SolutionLess(s: Solution, t: Solution): (r: bool)
    ensures r ==> CostOf(s) != CostOf(t)
    ensures r ==> SumInt(Twvs(s.fleet)) <= SumInt(Twvs(t.fleet))
  {
    Less(CostOf(s), CostOf(t))
  }

  /** Solutions are strictly weakly ordered: no solution is less than itself,
      the order is transitive, and two solutions are unordered exactly when
      their cost tuples are equal. */
  lemma SolutionLessIsStrictWeakOrder(s: Solution, t: Solution, u: Solution)
    ensures !SolutionLess(s, s)
    ensures SolutionLess(s, t) ==> !SolutionLess(t, s)
    ensures SolutionLess(s, t) && SolutionLess(t, u) ==> SolutionLess(s, u)
    ensures !SolutionLess(s, t) && !SolutionLess(t, s) <==> CostOf(s) == CostOf(t)
  {
  }

  // Export of the stop rows.

  /** A vehicle's own export given vehicle number `n`: its stop rows, in
      order, each stamped with `n`. */
  function VehicleRows(v: Vehicle, n: int): (rows: seq<OrderRow>)
  {
    seq(|v.stops|, j requires 0 <= j < |v.stops| => OrderRow(n, v.stops[j]))
  }

  /** The rows of a fleet whose first vehicle gets number `first`, the next
      `first + 1`, and so on. */
  function FleetRows(fleet: seq<Vehicle>, first: int): (rows: seq<OrderRow>)
  {
    if |fleet| == 0 then [] else VehicleRows(fleet[0], first) + FleetRows(fleet[1..], first + 1)
  }

  lemma {:induction false} FleetRowsAppend(fleet: seq<Vehicle>, v: Vehicle, first: int)
    ensures FleetRows(fleet + [v], first) == FleetRows(fleet, first) + VehicleRows(v, first + |fleet|)
  {
    if |fleet| == 0 {
      assert fleet + [v] == [v];
      assert FleetRows([v], first) == VehicleRows(v, first) + FleetRows([], first + 1);
    } else {
      assert (fleet + [v])[1..] == fleet[1..] + [v];
      FleetRowsAppend(fleet[1..], v, first + 1);
    }
  }

  /** The fleet's rows number as many as the sum of the vehicles' row counts. */
  lemma {:induction false} FleetRowsLength(fleet: seq<Vehicle>, first: int)
    ensures |FleetRows(fleet, first)| == SumInt(RowCounts(fleet))
  {
    if |fleet| > 0 {
      assert RowCounts(fleet)[1..] == RowCounts(fleet[1..]);
      FleetRowsLength(fleet[1..], first + 1);
    }
  }

  /** Row `j` of vehicle `k` sits after the rows of the vehicles before it,
      unchanged and stamped with number `first + k`. */
  lemma {:induction false} FleetRowsPlacement(fleet: seq<Vehicle>, first: int, k: nat, j: nat)
    requires k < |fleet| && j < |fleet[k].stops|
    ensures var at := SumInt(RowCounts(fleet[..k])) + j;
            0 <= at < |FleetRows(fleet, first)| && FleetRows(fleet, first)[at] == OrderRow(first + k, fleet[k].stops[j])
  {
    var head := VehicleRows(fleet[0], first);
    var tail := FleetRows(fleet[1..], first + 1);
    assert FleetRows(fleet, first) == head + tail;
    if k == 0 {
      assert fleet[..0] == [];
    } else {
      FleetRowsPlacement(fleet[1..], first + 1, k - 1, j);
      assert fleet[1..][..k - 1] == fleet[1..k];
      assert fleet[1..][k - 1] == fleet[k];
      var counts := RowCounts(fleet[..k]);
      assert counts[0] == |head|;
      assert counts[1..] == RowCounts(fleet[1..k]);
      assert SumInt(counts) == |head| + SumInt(RowCounts(fleet[1..k]));
    }
  }

  /** Vehicle numbers never decrease along the export and stay within
      `first .. first + |fleet| - 1`: fleet order is kept. */
  lemma {:induction false} FleetRowsOrdered(fleet: seq<Vehicle>, first: int)
    ensures forall a :: 0 <= a < |FleetRows(fleet, first)| ==>
              first <= FleetRows(fleet, first)[a].vehicleNumber < first + |fleet|
    ensures forall a, b :: 0 <= a <= b < |FleetRows(fleet, first)| ==>
              FleetRows(fleet, first)[a].vehicleNumber <= FleetRows(fleet, first)[b].vehicleNumber
  {
    if |fleet| > 0 {
      FleetRowsOrdered(fleet[1..], first + 1);
    }
  }

  /** `Solution::get_postgres_result`: keeps the rows already in `result` and
      appends each vehicle's rows in fleet order, vehicle `k` (0-based)
      numbered `k + 1`; the result grows by the sum of the row counts. Row `j`
      of vehicle `k` is found after the original rows and the rows of vehicles
      `0 .. k - 1`, unchanged and stamped `k + 1`. */
  method GetPostgresResult(s: Solution, result: seq<OrderRow>) returns (r: seq<OrderRow>)
    ensures |result| <= |r| && r[..|result|] == result
    ensures r[|result|..] == FleetRows(s.fleet, 1)
    ensures |r| == |result| + SumInt(RowCounts(s.fleet))
    ensures forall k, j :: 0 <= k < |s.fleet| && 0 <= j < |s.fleet[k].stops| ==>
              RowPlaced(s.fleet, |result|, r, k, j)
  {
    r := result;
    var i := 1;
    var n := 0;
    while n < |s.fleet|
      invariant 0 <= n <= |s.fleet|
      invariant i == n + 1
      invariant r == result + FleetRows(s.fleet[..n], 1)
    {
      var data := VehicleRows(s.fleet[n], i);
      assert s.fleet[..n + 1] == s.fleet[..n] + [s.fleet[n]];
      FleetRowsAppend(s.fleet[..n], s.fleet[n], 1);
      r := r + data;
      i := i + 1;
      n := n + 1;
    }
    assert s.fleet[..n] == s.fleet;
    FleetRowsLength(s.fleet, 1);
    PlacementInExport(s.fleet, result, r);
  }

  /** Row `j` of vehicle `k` (both 0-based) is in `r` at `base` plus the row
      counts of vehicles `0 .. k - 1` plus `j`, unchanged and stamped `k + 1`. */
  predicate RowPlaced(fleet: seq<Vehicle>, base: int, r: seq<OrderRow>, k: int, j: int)
    requires 0 <= k < |fleet| && 0 <= j < |fleet[k].stops|
  {
    var at := base + SumInt(RowCounts(fleet[..k])) + j;
    0 <= at < |r| && r[at] == OrderRow(k + 1, fleet[k].stops[j])
  }

  /** Every stop row of every vehicle lands in `result + FleetRows(fleet, 1)`
      right after the original rows and the rows of the vehicles before it. */
  lemma PlacementInExport(fleet: seq<Vehicle>, result: seq<OrderRow>, r: seq<OrderRow>)
    requires r == result + FleetRows(fleet, 1)
    ensures forall k, j :: 0 <= k < |fleet| && 0 <= j < |fleet[k].stops| ==>
              RowPlaced(fleet, |result|, r, k, j)
  {
    forall k, j | 0 <= k < |fleet| && 0 <= j < |fleet[k].stops|
      ensures RowPlaced(fleet, |result|, r, k, j)
    {
      FleetRowsLength(fleet[..k], 1);
      FleetRowsPlacement(fleet, 1, k, j);
    }
  }
}
